=== FILE: README.md ===
# Library catalog: book-copy workflow and Author/Genre records, in Dafny

This project models three pieces of a library-catalog web application:

- the **book-copy (BookInstance) workflow** of `controllers/bookinstanceController.js`:
  the validation and sanitisation chains of the create and update forms, and the
  detail, create, delete and update handlers. Each handler is a pure function over
  an abstract store (`map<Id, Fields>` of copies plus `map<Id, Book>` of books) that
  returns an `Outcome` — `Render(view)`, `Redirect(path)`, `NotFound(msg)`,
  `StoreError` or `Crash` — and, for the mutating handlers, the store afterwards;
- the **Author** schema (`models/author.js`): the constraints on the two required
  names and the derived fields `name`, `lifespan`, `date_formatted` and `url`;
- the **Genre** schema (`models/genre.js`): its field options and its `url`.

Files: `common.dfy` (optional values, identifiers, dates, string predicates),
`validation.dfy` (module `Validation`), `controller.dfy` (module
`BookInstanceController`), `author.dfy` (module `AuthorModel`), `genre.dfy`
(module `GenreModel`).

What the model takes as parameters instead of reimplementing:

- the validation library's `trim`, `escape`, `isISO8601` and `toDate` are the fields
  of a `Validator` value passed to `Validate` and to the two submit handlers;
- what the handlers use of the BookInstance model (its file is not part of this
  model) is an `InstanceModel` value: `castable`, whether a string casts to a
  record id, and `url`, the `url` virtual;
- date formatting (a locale-dependent medium date format) is a parameter
  `fmt: Date -> string` of the Author derived fields;
- failures of the document store are a parameter `faults: set<Call>` naming the
  store calls that fail in this request; a failing call ends the request in
  `StoreError` with the store unchanged;
- the new copy's identifier, generated when the document is constructed, is a
  parameter `newId` of `CreatePost`; if it is already taken the save fails like any
  store failure (duplicate key).

Behaviour the model keeps as the code has it:

- a document built from a book string that does not cast to a record id is left
  without a book. On the error path of both submit handlers the form is then not
  shown again: reading the book's id throws (`Crash`). A create with such a book
  fails at save (`StoreError`). An empty book never casts, so a submission that
  gets "Book must be specified" always ends in `Crash` (`EmptyBookNeverRedisplayed`);
- a missing `book`, `imprint` or `status` field reaches the sanitisers as the empty
  string, so a missing book or imprint is reported as not specified and a missing
  status becomes `""`;
- `status` is only escaped; it never produces an error;
- the date field's option is spelt `checlFalsy`, which the validation library does
  not recognise, so the field is skipped only when it is missing. An empty string
  is checked as a date and reported as "Invalid date" (`EmptyDueBackChecked`). The
  evidently intended `checkFalsy` check is `DateCheckSkippingEmpty` (see
  "## Findings"); the handlers keep the check as written, because they describe
  what a request to the application actually ends in;
- date conversion runs even when the ISO 8601 check failed, so a draft's due date is
  whatever the conversion yields;
- a copy whose book no longer exists populates to nothing, and the detail, delete
  confirmation and update form handlers then read a property of nothing: the model
  gives `Crash`. The same outcome is given when an update is submitted for an
  identifier with no copy: nothing is written and the missing result is read;
- an update sets only the paths the submitted document holds, it does not replace
  the record: a submission without `due_back` keeps the stored date, and a book
  string that does not cast keeps the stored book;
- delete-submit first looks up the route's id and ignores what it finds (only a
  failure of that lookup matters), then removes the copy named by the form's
  `bookinstanceid`, and redirects to the list whether or not that copy existed;
- a string the Author schema requires is missing when absent **or empty**. This is
  how the document library's required check treats strings.

Further facts about the code that shape the model:

- a book reference that does not resolve is not reported as a missing record: the
  handlers read the title (or id) of a book that did not populate, which throws
  (`Crash` here);
- authors have two separate date labels: `lifespan` always holds the separator,
  while `date_formatted` is the placeholder, the lifespan, or the empty string when
  only the death date is known;
- the Genre schema declares length bounds on the name, but its presence option is
  `remove: true`, which is not a validator (see "## Findings"); the bounds are
  modelled as enforced on a present name (see "## Left out");
- a validation error is a field and a message; the book-copy fields have no length
  check beyond the one-character minimum on book and imprint.

The rest of the model uses the intended Genre schema (`SchemaErrors`); the written
one is kept beside it as `SchemaErrorsAsWritten`.

## Model

| member | source | states |
|---|---|---|
| Validation.Gather | controllers/bookinstanceController.js:74 | the validation result keeps the error of every failing check and nothing else, never more errors than checks |
| Validation.GatherConcat | controllers/bookinstanceController.js:74 | gathering the errors of two runs of checks gives the first run's errors followed by the second's, so errors keep the order of the chains |
| Validation.Validate | controllers/bookinstanceController.js:60-69 | the error list is exactly the book error, then the imprint error, then the date error, each present once when its field fails and absent otherwise; book and imprint get their "must be specified" error exactly when empty after trimming; the date error comes exactly when a present date is not ISO 8601; no error is ever about status; the draft holds the trimmed and escaped book and imprint, the escaped status, and the converted date (none when the field is missing), whatever the errors |
| Validation.MissingDueBackSkipped | controllers/bookinstanceController.js:66-69 | a submission without a due date gets no date error and no date |
| Validation.EmptyDueBackChecked | controllers/bookinstanceController.js:67 | an empty due date is not skipped and, not being ISO 8601, is reported as an invalid date |
| Validation.DateCheckSkippingEmpty | controllers/bookinstanceController.js:66-69 | with the option spelt as intended, a date is reported exactly when it is present, non-empty and not ISO 8601 |
| Validation.DateChecksDifferOnlyOnEmpty | controllers/bookinstanceController.js:67 | the written and the intended date checks disagree exactly on an empty date |
| Validation.AllFailuresReported | controllers/bookinstanceController.js:188-202 | a submission failing on book, imprint and date gets all three errors, in field order |
| BookInstanceController.Detail | controllers/bookinstanceController.js:23-41 | a missing id gives a 404 "Book copy not found" and nothing else does; a found copy whose book exists is rendered, with the stored copy and its populated book, titled "Copy: " and the book's title; a store failure propagates; a dangling book reference crashes |
| BookInstanceController.CreateGet | controllers/bookinstanceController.js:44-55 | the empty create form offers every book; a failing book read propagates |
| BookInstanceController.CreatePost | controllers/bookinstanceController.js:58-110 | with validation errors the store is not written; a failing book read then propagates as a store error, and otherwise the form is rendered again with the draft, the full error list and the books exactly when the draft's book casts to an id (otherwise the handler throws); without errors a book that does not cast makes the save fail; otherwise the copy is saved under its new id with exactly the draft, every other copy kept, and the browser redirected to its url |
| BookInstanceController.DeleteGet | controllers/bookinstanceController.js:113-132 | a missing id gives a 404 "Book copy not found"; a found copy whose book exists renders the "Delete BookInstance" confirmation naming "Copy: " and the book's title |
| BookInstanceController.DeletePost | controllers/bookinstanceController.js:135-151 | without store failure it always redirects to /catalog/bookinstances; it removes exactly the form's copy id and keeps every other copy |
| BookInstanceController.UpdateGet | controllers/bookinstanceController.js:154-183 | a failure of either read gives a store error; otherwise a missing id gives a 404 "BookInstance not found"; the form is prefilled with the stored copy and its book selected |
| BookInstanceController.UpdatePost | controllers/bookinstanceController.js:186-244 | the draft carries the route id; with errors the store is not written, and the form is rendered again exactly when the draft's book casts to an id (otherwise the handler throws); an update failure propagates and a missing id throws; otherwise the copy at that id takes the draft's imprint and status, the draft's book when it casts (else keeps its book), and the draft's date when one was submitted (else keeps its date); no other copy changes, the set of ids is unchanged, and the browser goes to that copy's url |
| BookInstanceController.EmptyBookNeverRedisplayed | controllers/bookinstanceController.js:77-96 | a submission whose book is empty after trimming makes both submit handlers throw on the error path rather than show the form again |
| BookInstanceController.CreateThenDetail | controllers/bookinstanceController.js:77-107 | after a successful create, the detail page of the new id shows exactly the sanitised draft |
| BookInstanceController.UpdateThenEdit | controllers/bookinstanceController.js:205-241 | after a successful update whose book casts, the update form of the same id is prefilled with the sanitised draft, except that without a submitted date it shows the date stored before |
| BookInstanceController.CreateAndUpdateValidateAlike | controllers/bookinstanceController.js:60-69 | create and update report the same errors and the same draft fields for the same failing submission (the model shares one validation because the two chains are written identically) |
| BookInstanceController.DeleteIdempotent | controllers/bookinstanceController.js:140-148 | deleting twice leaves the same store and redirect as deleting once, and the copy is then not found |
| BookInstanceController.DeleteIgnoresRouteId | controllers/bookinstanceController.js:136-141 | the route id of a delete submission has no effect on what is removed |
| BookInstanceController.DetailAndDeleteAgree | controllers/bookinstanceController.js:30-37 | detail and delete confirmation fail alike, and the confirmation's book line equals the detail title |
| AuthorModel.NameErrors | models/author.js:7-16 | a name passes exactly when present with 1 to 100 characters; a missing or empty name gets the presence error and a name over 100 characters the length error, never both |
| AuthorModel.SchemaErrors | models/author.js:6-23 | an author passes the schema exactly when both names are present with 1 to 100 characters; each name gets the presence error exactly when missing or empty and the length error exactly when over 100 characters, never both |
| AuthorModel.DatesAreOptional | models/author.js:17-22 | neither date affects whether an author is valid |
| AuthorModel.Name | models/author.js:25-27 | the display name is the family name, ", ", then the first name (a missing name prints as "undefined") |
| AuthorModel.ValidName | models/author.js:25-27 | for a valid author the display name is family name + ", " + first name |
| AuthorModel.Lifespan | models/author.js:29-43 | the lifespan always contains " - "; it starts with the formatted birth date and " - " when born, with " - " when not; it ends with " - " and the formatted death date when dead, with " - " when not |
| AuthorModel.DateFormatted | models/author.js:49-64 | the label is "No date registered" exactly when both dates are missing; with a birth date it equals the lifespan; with only a death date it is empty |
| AuthorModel.UndatedLabels | models/author.js:29-52 | with no dates the lifespan is the bare " - " while the date label is the placeholder |
| AuthorModel.Url | models/author.js:45-47 | the path starts with "/catalog/author/" and the id can be read back from the rest of it |
| AuthorModel.UrlIdentifiesAuthor | models/author.js:45-47 | two authors have the same path exactly when they have the same id |
| GenreModel.LengthErrors | models/genre.js:7-8 | a present name passes the declared bounds exactly when it has 3 to 100 characters; it is too short exactly below 3 and too long exactly above 100 |
| GenreModel.SchemaErrorsAsWritten | models/genre.js:3-13 | as written, a genre passes exactly when its name is missing or within bounds; a missing name is never reported; a present name gets exactly its length errors (too short below 3, too long above 100) |
| GenreModel.UnnamedGenreAccepted | models/genre.js:4-6 | a genre with no name passes the schema as written |
| GenreModel.SchemaErrors | models/genre.js:3-13 | with the name required, a genre passes exactly when its name is present and within bounds; a missing or empty name is reported as required; any other name gets exactly its length errors |
| GenreModel.RequiredOnlyAddsPresence | models/genre.js:4-8 | the intended schema accepts a subset of what the written one accepts, and differs exactly on genres without a name |
| GenreModel.CategoryUnconstrained | models/genre.js:10-12 | the category never changes either schema's verdict |
| GenreModel.Url | models/genre.js:15-17 | the path starts with "/catalog/genre/" and the id can be read back from the rest of it |
| GenreModel.UrlIdentifiesGenre | models/genre.js:15-17 | two genres have the same path exactly when they have the same id, whatever their names and categories |

## Left out

- Persistence and queries of the document store: the store is an abstract pair of maps, and any store failure is the opaque `StoreError`.
- Rendering and redirect internals and the middleware chain: they appear only as `Outcome` values.
- The parallel reads of the update form: they are a sequential join in which a failure of either read wins.
- The internals of the validation library (trimming, HTML escaping, ISO 8601 parsing, date conversion): they are parameters, not reimplemented.
- Locale-dependent date formatting: it is the parameter `fmt`.
- Validation.Validate: error entries carry the field and message only, not the submitted value or its location.
- BookInstanceController.CreatePost: whether a book string casts to a record id is the parameter `castable`, not the document library's own rule; a castable string is taken to be the canonical id, so the cast's normalisation (upper-case hexadecimal becoming lower-case, for one) is not modelled in the stored book or `selected_book`.
- BookInstanceController.Detail: a malformed route id makes the lookup fail rather than find nothing; the model represents it by putting `FindInstance` in `faults`, and gives the 404 only for a well-formed id that is not in the store.
- BookInstanceController.DeleteGet: a malformed route id is represented by putting `FindInstance` in `faults`, as for `Detail`.
- BookInstanceController.UpdateGet: a malformed route id is represented by putting `FindInstance` in `faults`, as for `Detail`.
- BookInstanceController.UpdatePost: a malformed route id is represented by putting `Update` in `faults`; whether a book string casts is the parameter `castable`, and a castable string is taken to be the canonical id, as for `CreatePost`.
- BookInstanceController.DeletePost: the body id is always a string; a missing `bookinstanceid` and the casting of malformed ids are folded into the store failures.
- The list handler and the Book and BookInstance models: the list's order depends on the store, and the two model files are not part of this model (hence the opaque `InstanceModel` and the absent status enum).
- `date_of_birth_yyyy_mm_dd` and `date_of_death_yyyy_mm_dd`: they format a date without checking it is present, and their comment names a format they do not use.
- GenreModel.LengthErrors: the bounds are given as the strings "3" and "100" under camelCase keys; the model treats them as enforced on a present name, as the document library's numeric comparison would, and leaves open whether that was the intent.
- Names and lengths are counted in Dafny characters, not UTF-16 code units.

## Findings

| source | as written | input that shows it | evidently intended | confidence | as-written member | corrected member |
|---|---|---|---|---|---|---|
| controllers/bookinstanceController.js:67 | the date option is spelt `checlFalsy`, which the validation library ignores, so only a missing date is skipped | a submission with `due_back` equal to "" (an empty date input) is rejected with "Invalid date" | `checkFalsy: true`, skipping empty dates | high on the code's meaning, not executed | Validation.EmptyDueBackChecked | Validation.DateCheckSkippingEmpty |
| models/genre.js:6 | the name option is `remove: true`, which is not a validator, so the name is not required | a genre with no name at all passes the schema | `required: true` | high on the code's meaning, not executed | GenreModel.UnnamedGenreAccepted | GenreModel.SchemaErrors |

=== FILE: author.dfy ===
/**
 The Author record: its schema constraints and the presentation fields
 derived from it (display name, lifespan, date label and canonical path).
 Derived fields are computed on read and never stored.
 */
module AuthorModel {
  import opened Common

  /** A stored author. Both names are required by the schema but a document may lack them. */
  datatype Author = Author(
    id: Id,
    firstName: Option<string>,
    familyName: Option<string>,
    dateOfBirth: Option<Date>,
    dateOfDeath: Option<Date>)

  datatype NamePath = FirstName | FamilyName

  /** A schema violation on one of the two name paths. */
  datatype SchemaError = Required(path: NamePath) | TooLong(path: NamePath)

  const MaxNameLength := 100
  const Separator := " - "
  const NoDate := "No date registered"
  const UrlPrefix := "/catalog/author/"

  /** How a string attribute prints inside a concatenation: an undefined one prints as `undefined`. */
  function Show(o: Option<string>): string {
    match o
    case Some(s) => s
    case None => "undefined"
  }

  /** The date label of an optional date: the formatted date, or nothing. */
  function Formatted(d: Option<Date>, fmt: Date -> string): string {
    match d
    case Some(x) => fmt(x)
    case None => ""
  }

  /**
   The checks on one required name of at most 100 characters. A required
   string is missing when absent or empty; the length check only runs on a
   value that is there.
   */
  function NameErrors(path: NamePath, name: Option<string>): (errs: set<SchemaError>)
    ensures errs == {} <==> name.Some? && 1 <= |name.value| <= MaxNameLength
    ensures Required(path) in errs <==> name.None? || name == Some("")
    ensures TooLong(path) in errs <==> name.Some? && |name.value| > MaxNameLength
    ensures forall e :: e in errs ==> e.path == path
    ensures |errs| <= 1
  {
    match name
    case None => {Required(path)}
    case Some(s) =>
      if |s| == 0 then {Required(path)}
      else if |s| > MaxNameLength then {TooLong(path)}
      else {}
  }

  /** All schema violations of an author; the dates carry no constraint. */
  function SchemaErrors(a: Author): (errs: set<SchemaError>)
    ensures errs == {} <==>
      && a.firstName.Some? && 1 <= |a.firstName.value| <= MaxNameLength
      && a.familyName.Some? && 1 <= |a.familyName.value| <= MaxNameLength
    ensures forall p :: !(Required(p) in errs && TooLong(p) in errs)
    ensures Required(FirstName) in errs <==> a.firstName.None? || a.firstName == Some("")
    ensures TooLong(FirstName) in errs <==> a.firstName.Some? && |a.firstName.value| > MaxNameLength
    ensures Required(FamilyName) in errs <==> a.familyName.None? || a.familyName == Some("")
    ensures TooLong(FamilyName) in errs <==> a.familyName.Some? && |a.familyName.value| > MaxNameLength
  {
    NameErrors(FirstName, a.firstName) + NameErrors(FamilyName, a.familyName)
  }

  predicate Valid(a: Author) {
    SchemaErrors(a) == {}
  }

  /** The dates never decide validity: changing either leaves the verdict as it was. */
  lemma DatesAreOptional(a: Author, birth: Option<Date>, death: Option<Date>)
    ensures Valid(a.(dateOfBirth := birth, dateOfDeath := death)) <==> Valid(a)
  {
  }

  /** The display name: family name, a comma, then the first name. */
  function Name(a: Author): (r: string)
    ensures StartsWith(r, Show(a.familyName))
    ensures EndsWith(r, Show(a.firstName))
    ensures |r| == |Show(a.familyName)| + 2 + |Show(a.firstName)|
    ensures r[|Show(a.familyName)|..|Show(a.familyName)| + 2] == ", "
  {
    Show(a.familyName) + ", " + Show(a.firstName)
  }

  /** For a schema-valid author the display name is built from the stored names alone. */
  lemma ValidName(a: Author)
    requires Valid(a)
    ensures Name(a) == a.familyName.value + ", " + a.firstName.value
  {
  }

  /**
   The lifespan: the birth date's label, the separator, the death date's
   label; an absent date leaves its side empty.
   */
  function Lifespan(a: Author, fmt: Date -> string): (r: string)
    ensures Contains(r, Separator)
    ensures a.dateOfBirth.Some? ==> StartsWith(r, fmt(a.dateOfBirth.value) + Separator)
    ensures a.dateOfBirth.None? ==> StartsWith(r, Separator)
    ensures a.dateOfDeath.Some? ==> EndsWith(r, Separator + fmt(a.dateOfDeath.value))
    ensures a.dateOfDeath.None? ==> EndsWith(r, Separator)
    ensures |r| == |Formatted(a.dateOfBirth, fmt)| + 3 + |Formatted(a.dateOfDeath, fmt)|
  {
    var birth := Formatted(a.dateOfBirth, fmt);
    var death := Formatted(a.dateOfDeath, fmt);
    ContainsMiddle(birth, Separator, death);
    assert (birth + Separator + death)[..|birth + Separator|] == birth + Separator;
    birth + Separator + death
  }

  /** The placeholder for an author without dates contains no dash. */
  lemma PlaceholderHasNoDash()
    ensures forall i :: 0 <= i < |NoDate| ==> NoDate[i] != '-'
  {
  }

  /**
   The date label: the placeholder when neither date is known, the lifespan
   when the birth date is known, and nothing when only the death date is.
   */
  function DateFormatted(a: Author, fmt: Date -> string): (r: string)
    ensures r == NoDate <==> a.dateOfBirth.None? && a.dateOfDeath.None?
    ensures a.dateOfBirth.Some? ==> r == Lifespan(a, fmt)
    ensures a.dateOfBirth.None? && a.dateOfDeath.Some? ==> r == ""
  {
    if a.dateOfDeath.None? && a.dateOfBirth.None? then NoDate
    else if a.dateOfBirth.Some? then
      var birth := fmt(a.dateOfBirth.value);
      var r := birth + Separator + Formatted(a.dateOfDeath, fmt);
      PlaceholderHasNoDash();
      assert r[|birth| + 1] == '-';
      assert r != NoDate;
      r
    else ""
  }

  /** With neither date known the two labels differ: the lifespan is the bare separator. */
  lemma UndatedLabels(a: Author, fmt: Date -> string)
    requires a.dateOfBirth.None? && a.dateOfDeath.None?
    ensures Lifespan(a, fmt) == Separator
    ensures DateFormatted(a, fmt) == NoDate
  {
  }

  /** The canonical path of an author: built from its identifier alone. */
  function Url(a: Author): (r: string)
    ensures StartsWith(r, UrlPrefix)
    ensures r[|UrlPrefix|..] == a.id
  {
    CanonicalPath(UrlPrefix, a.id)
  }

  /** Two authors share a path exactly when they share an identifier; no other attribute matters. */
  lemma UrlIdentifiesAuthor(a: Author, b: Author)
    ensures Url(a) == Url(b) <==> a.id == b.id
  {
    CanonicalPathInjective(UrlPrefix, a.id, b.id);
  }
}

=== FILE: common.dfy ===
/**
 Shared vocabulary of the catalog model: optional values, record identifiers,
 dates, and the few string predicates the derived-field lemmas are stated with.
 */
module Common {

  /** An attribute that may be absent (`undefined` in the stored document). */
  datatype Option<+T> = None | Some(value: T) {

    /** The value, or `default` when absent. */
    function GetOr(default: T): T {
      match this
      case Some(v) => v
      case None => default
    }
  }

  /** A record identifier, as the hexadecimal string an ObjectId prints as. */
  type Id = string

  /** A calendar instant; only its identity matters to the model. */
  datatype Date = Date(epochMillis: int)

  /** `t` occurs somewhere inside `s`. */
  predicate Contains(s: string, t: string) {
    exists i :: 0 <= i <= |s| && OccursAt(s, t, i)
  }

  /** `t` occurs inside `s` starting at index `i`. */
  predicate OccursAt(s: string, t: string, i: int) {
    0 <= i <= |s| - |t| && s[i..i + |t|] == t
  }

  /** `s` starts with `t`. */
  predicate StartsWith(s: string, t: string) {
    |t| <= |s| && s[..|t|] == t
  }

  /** `s` ends with `t`. */
  predicate EndsWith(s: string, t: string) {
    |t| <= |s| && s[|s| - |t|..] == t
  }

  /** The literal `t` occurs in `a + t + b`, right after `a`. */
  lemma ContainsMiddle(a: string, t: string, b: string)
    ensures Contains(a + t + b, t)
  {
    var s := a + t + b;
    assert s[|a|..|a| + |t|] == t;
    assert OccursAt(s, t, |a|);
  }

  /**
   The canonical path of a record: its collection's path prefix followed by
   the record's identifier, from which the identifier can be read back.
   */
  function CanonicalPath(prefix: string, id: Id): (r: string)
    ensures StartsWith(r, prefix)
    ensures r[|prefix|..] == id
  {
    prefix + id
  }

  /** Within one collection, paths and identifiers correspond one to one. */
  lemma CanonicalPathInjective(prefix: string, a: Id, b: Id)
    ensures CanonicalPath(prefix, a) == CanonicalPath(prefix, b) <==> a == b
  {
    if CanonicalPath(prefix, a) == CanonicalPath(prefix, b) {
      assert a == CanonicalPath(prefix, a)[|prefix|..];
    }
  }
}

=== FILE: controller.dfy ===
/**
 The book-copy (BookInstance) workflow: detail, create, delete and update
 handlers over an abstract store. Each handler returns the outcome the web
 layer acts on; the mutating ones also return the store after the request.
 */
module BookInstanceController {
  import opened Common
  import opened Validation

  /** A book, as far as the book-copy pages use it. */
  datatype Book = Book(title: string)

  /** The persistent state: book copies and books, each keyed by identifier. */
  datatype Store = Store(instances: map<Id, Fields>, books: map<Id, Book>)

  /** A book-copy document: identifier plus attributes. */
  datatype Doc = Doc(id: Id, fields: Fields)

  /**
   What the handlers use of the BookInstance model, whose definition is not
   part of this model: whether a string casts to a record id (a document built
   from one that does not is left without its book), and the `url` virtual.
   */
  datatype InstanceModel = InstanceModel(castable: Id -> bool, url: Id -> string)

  /** The store calls a handler may issue; any of them can fail. */
  datatype Call = FindInstance | FindBooks | Save | Update | Remove

  datatype View =
    | DetailPage(title: string, instance: Doc, populatedBook: Book)
    | FormPage(title: string, bookList: map<Id, Book>, selectedBook: Option<Id>,
               errors: seq<FieldError>, draft: Option<Doc>)
    | DeletePage(title: string, book: string, instance: Doc)

  /**
   What the request ends in: a rendered page, a redirect, a 404 with its
   message, a store failure handed on to the error handler, or an exception
   thrown by the handler itself (a property read on a missing document).
   */
  datatype Outcome =
    | Render(view: View)
    | Redirect(path: string)
    | NotFound(msg: string)
    | StoreError
    | Crash

  datatype Response = Response(outcome: Outcome, db: Store)

  const CopyNotFound := "Book copy not found"
  const InstanceNotFound := "BookInstance not found"
  const ListPath := "/catalog/bookinstances"
  const CreateTitle := "Create BookInstance"
  const UpdateTitle := "Update BookInstance"

  /**
   Loads a copy with its book populated. A copy whose book is gone populates
   to nothing, and reading the book's title then throws.
   */
  function Detail(db: Store, id: Id, faults: set<Call>): (r: Outcome)
    ensures FindInstance in faults ==> r == StoreError
    ensures FindInstance !in faults ==> (r.NotFound? <==> id !in db.instances)
    ensures r.NotFound? ==> r.msg == CopyNotFound
    ensures r.Render? ==>
      && id in db.instances
      && r.view.DetailPage?
      && r.view.instance == Doc(id, db.instances[id])
      && db.instances[id].book in db.books
      && r.view.populatedBook == db.books[db.instances[id].book]
      && r.view.title == "Copy: " + db.books[db.instances[id].book].title
    ensures r.Crash? <==> FindInstance !in faults && id in db.instances && db.instances[id].book !in db.books
    ensures FindInstance !in faults && id in db.instances && db.instances[id].book in db.books ==> r.Render?
  {
    if FindInstance in faults then StoreError
    else if id !in db.instances then NotFound(CopyNotFound)
    else
      var f := db.instances[id];
      if f.book !in db.books then Crash
      else
        var b := db.books[f.book];
        Render(DetailPage("Copy: " + b.title, Doc(id, f), b))
  }

  /** The empty create form, offering every book. */
  function CreateGet(db: Store, faults: set<Call>): (r: Outcome)
    ensures FindBooks in faults <==> r == StoreError
    ensures FindBooks !in faults ==> r.Render?
    ensures r.Render? ==> r.view == FormPage(CreateTitle, db.books, None, [], None)
  {
    if FindBooks in faults then StoreError
    else Render(FormPage(CreateTitle, db.books, None, [], None))
  }

  /**
   Create on submit. With validation errors the form is shown again with the
   draft and every error and the store is left alone; otherwise the draft is
   saved under the identifier generated for it and the browser is sent to it.
   A book string that does not cast to an id leaves the document without a
   book: the error path then throws reading its id, and the save fails.
   */
  function CreatePost(val: Validator, im: InstanceModel, db: Store, form: RawForm,
                      newId: Id, faults: set<Call>): (r: Response)
    ensures r.db.books == db.books
    ensures Validate(val, form).errors != [] ==> r.db == db
    ensures !r.outcome.Redirect? ==> r.db == db
    ensures r.outcome.Render? <==>
      Validate(val, form).errors != [] && FindBooks !in faults && im.castable(Validate(val, form).draft.book)
    ensures r.outcome.Crash? <==>
      Validate(val, form).errors != [] && FindBooks !in faults && !im.castable(Validate(val, form).draft.book)
    ensures r.outcome.Render? ==>
      r.outcome.view == FormPage(CreateTitle, db.books, Some(Validate(val, form).draft.book),
                                 Validate(val, form).errors, Some(Doc(newId, Validate(val, form).draft)))
    ensures r.outcome.Redirect? <==>
      && Validate(val, form).errors == [] && im.castable(Validate(val, form).draft.book)
      && Save !in faults && newId !in db.instances
    ensures r.outcome.Redirect? ==>
      && r.outcome.path == im.url(newId)
      && r.db.instances.Keys == db.instances.Keys + {newId}
      && r.db.instances[newId] == Validate(val, form).draft
      && forall k :: k in db.instances ==> r.db.instances[k] == db.instances[k]
    ensures Validate(val, form).errors != [] && FindBooks in faults ==> r.outcome == StoreError
    ensures Validate(val, form).errors == [] ==> r.outcome.Redirect? || r.outcome.StoreError?
  {
    var v := Validate(val, form);
    if v.errors != [] then
      if FindBooks in faults then Response(StoreError, db)
      else if !im.castable(v.draft.book) then Response(Crash, db)
      else Response(Render(FormPage(CreateTitle, db.books, Some(v.draft.book), v.errors,
                                    Some(Doc(newId, v.draft)))), db)
    else if Save in faults || !im.castable(v.draft.book) || newId in db.instances then Response(StoreError, db)
    else Response(Redirect(im.url(newId)), db.(instances := db.instances[newId := v.draft]))
  }

  /** The delete confirmation page, naming the copy's book. */
  function DeleteGet(db: Store, id: Id, faults: set<Call>): (r: Outcome)
    ensures FindInstance in faults ==> r == StoreError
    ensures FindInstance !in faults ==> (r.NotFound? <==> id !in db.instances)
    ensures r.NotFound? ==> r.msg == CopyNotFound
    ensures r.Render? ==>
      && id in db.instances
      && r.view.DeletePage?
      && r.view.title == "Delete BookInstance"
      && r.view.instance == Doc(id, db.instances[id])
      && db.instances[id].book in db.books
      && r.view.book == "Copy: " + db.books[db.instances[id].book].title
    ensures r.Crash? <==> FindInstance !in faults && id in db.instances && db.instances[id].book !in db.books
    ensures FindInstance !in faults && id in db.instances && db.instances[id].book in db.books ==> r.Render?
  {
    if FindInstance in faults then StoreError
    else if id !in db.instances then NotFound(CopyNotFound)
    else
      var f := db.instances[id];
      if f.book !in db.books then Crash
      else Render(DeletePage("Delete BookInstance", "Copy: " + db.books[f.book].title, Doc(id, f)))
  }

  /**
   Delete on submit. The lookup of the route's id is issued but its result is
   ignored: `routeId` matters only through a failure of that lookup, which is
   `FindInstance` in `faults`. The copy removed is the one named by the form's
   `bookinstanceid`, and the browser always goes back to the list.
   */
  function DeletePost(db: Store, routeId: Id, bodyId: Id, faults: set<Call>): (r: Response)
    ensures r.db.books == db.books
    ensures FindInstance !in faults && Remove !in faults <==> r.outcome == Redirect(ListPath)
    ensures r.outcome.Redirect? || r.outcome.StoreError?
    ensures r.outcome.StoreError? ==> r.db == db
    ensures r.outcome.Redirect? ==>
      && r.db.instances.Keys == db.instances.Keys - {bodyId}
      && forall k :: k in r.db.instances ==> r.db.instances[k] == db.instances[k]
  {
    if FindInstance in faults || Remove in faults then Response(StoreError, db)
    else Response(Redirect(ListPath), db.(instances := db.instances - {bodyId}))
  }

  /**
   The update form, prefilled. The copy and the book list are read side by
   side; a failure of either read ends the request.
   */
  function UpdateGet(db: Store, id: Id, faults: set<Call>): (r: Outcome)
    ensures FindInstance in faults || FindBooks in faults <==> r == StoreError
    ensures r != StoreError ==> (r.NotFound? <==> id !in db.instances)
    ensures r.NotFound? ==> r.msg == InstanceNotFound
    ensures r.Render? ==>
      && id in db.instances
      && db.instances[id].book in db.books
      && r.view == FormPage(UpdateTitle, db.books, Some(db.instances[id].book), [],
                            Some(Doc(id, db.instances[id])))
    ensures r.Crash? <==>
      FindInstance !in faults && FindBooks !in faults && id in db.instances && db.instances[id].book !in db.books
    ensures (FindInstance !in faults && FindBooks !in faults && id in db.instances &&
             db.instances[id].book in db.books) ==> r.Render?
  {
    if FindInstance in faults || FindBooks in faults then StoreError
    else if id !in db.instances then NotFound(InstanceNotFound)
    else
      var f := db.instances[id];
      if f.book !in db.books then Crash
      else Render(FormPage(UpdateTitle, db.books, Some(f.book), [], Some(Doc(id, f))))
  }

  /**
   The attributes an update leaves at an id. The store sets only the paths the
   submitted document holds: a book that did not cast to an id and a date field
   that was not submitted leave the stored values in place.
   */
  function Overwrite(im: InstanceModel, stored: Fields, form: RawForm, draft: Fields): Fields {
    Fields(
      if im.castable(draft.book) then draft.book else stored.book,
      draft.imprint,
      draft.status,
      if form.dueBack.Some? then draft.dueBack else stored.dueBack)
  }

  /**
   Update on submit. The draft carries the route's id. With validation errors
   the form is shown again and the store is left alone; otherwise the paths the
   draft holds overwrite the copy at that id and the browser is sent to it.
   When no copy has that id nothing is written and reading the missing result
   throws. On the error path, a book string that does not cast to an id leaves
   the draft without a book, and reading its id throws.
   */
  function UpdatePost(val: Validator, im: InstanceModel, db: Store, id: Id,
                      form: RawForm, faults: set<Call>): (r: Response)
    ensures r.db.books == db.books
    ensures Validate(val, form).errors != [] ==> r.db == db
    ensures !r.outcome.Redirect? ==> r.db == db
    ensures r.outcome.Render? <==>
      Validate(val, form).errors != [] && FindBooks !in faults && im.castable(Validate(val, form).draft.book)
    ensures Validate(val, form).errors != [] ==>
      (r.outcome.Crash? <==> FindBooks !in faults && !im.castable(Validate(val, form).draft.book))
    ensures r.outcome.Render? ==>
      r.outcome.view == FormPage(UpdateTitle, db.books, Some(Validate(val, form).draft.book),
                                 Validate(val, form).errors, Some(Doc(id, Validate(val, form).draft)))
    ensures r.outcome.Redirect? <==>
      Validate(val, form).errors == [] && Update !in faults && id in db.instances
    ensures r.outcome.Redirect? ==>
      && r.outcome.path == im.url(id)
      && r.db.instances.Keys == db.instances.Keys
      && r.db.instances[id].imprint == Validate(val, form).draft.imprint
      && r.db.instances[id].status == Validate(val, form).draft.status
      && (im.castable(Validate(val, form).draft.book) ==> r.db.instances[id].book == Validate(val, form).draft.book)
      && (!im.castable(Validate(val, form).draft.book) ==> r.db.instances[id].book == db.instances[id].book)
      && (form.dueBack.Some? ==> r.db.instances[id].dueBack == Validate(val, form).draft.dueBack)
      && (form.dueBack.None? ==> r.db.instances[id].dueBack == db.instances[id].dueBack)
      && forall k :: k in db.instances && k != id ==> r.db.instances[k] == db.instances[k]
    ensures Validate(val, form).errors != [] && FindBooks in faults ==> r.outcome == StoreError
    ensures Validate(val, form).errors == [] && Update in faults ==> r.outcome == StoreError
    ensures Validate(val, form).errors == [] && Update !in faults && id !in db.instances ==> r.outcome == Crash
  {
    var v := Validate(val, form);
    var doc := Doc(id, v.draft);
    if v.errors != [] then
      if FindBooks in faults then Response(StoreError, db)
      else if !im.castable(v.draft.book) then Response(Crash, db)
      else Response(Render(FormPage(UpdateTitle, db.books, Some(v.draft.book), v.errors, Some(doc))), db)
    else if Update in faults then Response(StoreError, db)
    else if id !in db.instances then Response(Crash, db)
    else
      var stored := Overwrite(im, db.instances[id], form, v.draft);
      Response(Redirect(im.url(id)), db.(instances := db.instances[id := stored]))
  }

  /**
   Reading back a created copy: after a successful create, the detail page of
   the new identifier shows exactly the sanitised draft.
   */
  lemma CreateThenDetail(val: Validator, im: InstanceModel, db: Store, form: RawForm,
                         newId: Id, faults: set<Call>)
    requires CreatePost(val, im, db, form, newId, faults).outcome.Redirect?
    requires Validate(val, form).draft.book in db.books
    ensures Detail(CreatePost(val, im, db, form, newId, faults).db, newId, {}).Render?
    ensures Detail(CreatePost(val, im, db, form, newId, faults).db, newId, {}).view.instance
            == Doc(newId, Validate(val, form).draft)
  {
  }

  /**
   Reading back an updated copy: after a successful update whose book casts and
   which submitted a date, the update form of the same identifier is prefilled
   with the sanitised draft; without a submitted date it shows the draft with
   the date stored before.
   */
  lemma UpdateThenEdit(val: Validator, im: InstanceModel, db: Store, id: Id,
                       form: RawForm, faults: set<Call>)
    requires UpdatePost(val, im, db, id, form, faults).outcome.Redirect?
    requires im.castable(Validate(val, form).draft.book)
    requires Validate(val, form).draft.book in db.books
    ensures UpdateGet(UpdatePost(val, im, db, id, form, faults).db, id, {}).Render?
    ensures form.dueBack.Some? ==>
      UpdateGet(UpdatePost(val, im, db, id, form, faults).db, id, {}).view.draft
        == Some(Doc(id, Validate(val, form).draft))
    ensures form.dueBack.None? ==>
      UpdateGet(UpdatePost(val, im, db, id, form, faults).db, id, {}).view.draft
        == Some(Doc(id, Validate(val, form).draft.(dueBack := db.instances[id].dueBack)))
  {
  }

  /**
   Create and update run the same validation: on a failing submission both
   show the same errors and the same draft, differing only in title and in the
   identifier the draft carries. The two handlers share one `Validate` because
   their validation chains are written identically; this lemma states the
   consequence for the pages, not that identity.
   */
  lemma CreateAndUpdateValidateAlike(val: Validator, im: InstanceModel, db: Store,
                                     form: RawForm, newId: Id, id: Id, faults: set<Call>)
    requires Validate(val, form).errors != [] && FindBooks !in faults
    requires im.castable(Validate(val, form).draft.book)
    ensures CreatePost(val, im, db, form, newId, faults).outcome.view.errors
            == UpdatePost(val, im, db, id, form, faults).outcome.view.errors
    ensures CreatePost(val, im, db, form, newId, faults).outcome.view.draft.value.fields
            == UpdatePost(val, im, db, id, form, faults).outcome.view.draft.value.fields
  {
  }

  /**
   Delete is idempotent from the caller's side: repeating it leaves the same
   store and the same redirect, and afterwards the copy is not found.
   */
  lemma DeleteIdempotent(db: Store, routeId: Id, bodyId: Id)
    ensures DeletePost(DeletePost(db, routeId, bodyId, {}).db, routeId, bodyId, {})
            == DeletePost(db, routeId, bodyId, {})
    ensures Detail(DeletePost(db, routeId, bodyId, {}).db, bodyId, {}) == NotFound(CopyNotFound)
  {
    var once := DeletePost(db, routeId, bodyId, {}).db;
    assert once.instances - {bodyId} == once.instances;
  }

  /** The route id of a delete submission has no effect on what is removed. */
  lemma DeleteIgnoresRouteId(db: Store, routeId: Id, otherId: Id, bodyId: Id, faults: set<Call>)
    ensures DeletePost(db, routeId, bodyId, faults) == DeletePost(db, otherId, bodyId, faults)
  {
  }

  /**
   The detail page and the delete confirmation load a copy the same way: they
   fail alike, and when they render, the confirmation's book line is the
   detail page's title.
   */
  lemma DetailAndDeleteAgree(db: Store, id: Id, faults: set<Call>)
    ensures Detail(db, id, faults).Render? <==> DeleteGet(db, id, faults).Render?
    ensures !Detail(db, id, faults).Render? ==> Detail(db, id, faults) == DeleteGet(db, id, faults)
    ensures Detail(db, id, faults).Render? ==>
      Detail(db, id, faults).view.title == DeleteGet(db, id, faults).view.book
  {
  }

  /**
   A submission whose book is empty after trimming is never shown again: its
   escaped book is still empty, which casts to no id, so both submit handlers
   throw on the error path instead of rendering the form.
   */
  lemma EmptyBookNeverRedisplayed(val: Validator, im: InstanceModel, db: Store, form: RawForm,
                                  newId: Id, id: Id, faults: set<Call>)
    requires val.trim(Text(form.book)) == "" && val.escape("") == "" && !im.castable("")
    requires FindBooks !in faults
    ensures CreatePost(val, im, db, form, newId, faults).outcome == Crash
    ensures UpdatePost(val, im, db, id, form, faults).outcome == Crash
  {
    assert BookError in Validate(val, form).errors;
  }
}

=== FILE: genre.dfy ===
/**
 The Genre record: its schema constraints, as written and as evidently
 intended, and its canonical path.
 */
module GenreModel {
  import opened Common

  datatype Genre = Genre(id: Id, name: Option<string>, category: Option<string>)

  datatype SchemaError = NameRequired | NameTooShort | NameTooLong

  const MinNameLength := 3
  const MaxNameLength := 100
  const UrlPrefix := "/catalog/genre/"

  /** The declared length bounds, on a name that is there. */
  predicate NameLengthOk(s: string) {
    MinNameLength <= |s| <= MaxNameLength
  }

  /** The length checks on a present name. */
  function LengthErrors(s: string): (errs: set<SchemaError>)
    ensures errs == {} <==> NameLengthOk(s)
    ensures NameTooShort in errs <==> |s| < MinNameLength
    ensures NameTooLong in errs <==> |s| > MaxNameLength
    ensures NameRequired !in errs
    ensures |errs| <= 1
  {
    if |s| < MinNameLength then {NameTooShort}
    else if |s| > MaxNameLength then {NameTooLong}
    else {}
  }

  /**
   The schema as written: the name's only option besides its bounds is
   `remove: true`, which is no validator, so a missing name passes; the bounds
   apply only to a name that is there. The category is free.
   */
  function SchemaErrorsAsWritten(g: Genre): (errs: set<SchemaError>)
    ensures errs == {} <==> g.name.None? || NameLengthOk(g.name.value)
    ensures NameRequired !in errs
    ensures g.name.Some? ==> errs == LengthErrors(g.name.value)
  {
    match g.name
    case None => {}
    case Some(s) => LengthErrors(s)
  }

  /** A genre without a name is accepted by the schema as written. */
  lemma UnnamedGenreAccepted(id: Id, category: Option<string>)
    ensures SchemaErrorsAsWritten(Genre(id, None, category)) == {}
  {
  }

  /**
   The schema as evidently intended, with the name required: a missing or
   empty name is reported as such, any other name must meet the bounds.
   */
  function SchemaErrors(g: Genre): (errs: set<SchemaError>)
    ensures errs == {} <==> g.name.Some? && NameLengthOk(g.name.value)
    ensures NameRequired in errs <==> g.name.None? || g.name == Some("")
    ensures g.name.Some? && g.name.value != "" ==> errs == LengthErrors(g.name.value)
    ensures |errs| <= 1
  {
    match g.name
    case None => {NameRequired}
    case Some(s) => if s == "" then {NameRequired} else LengthErrors(s)
  }

  /**
   The intended schema only adds the presence check: whatever it accepts the
   written one accepts, and the written one accepts more only for genres
   without a name.
   */
  lemma RequiredOnlyAddsPresence(g: Genre)
    ensures SchemaErrors(g) == {} ==> SchemaErrorsAsWritten(g) == {}
    ensures SchemaErrorsAsWritten(g) == {} && SchemaErrors(g) != {} <==> g.name.None?
  {
  }

  /** The category never affects the verdict of either schema. */
  lemma CategoryUnconstrained(g: Genre, category: Option<string>)
    ensures SchemaErrors(g.(category := category)) == SchemaErrors(g)
    ensures SchemaErrorsAsWritten(g.(category := category)) == SchemaErrorsAsWritten(g)
  {
  }

  /** The canonical path of a genre: built from its identifier alone. */
  function Url(g: Genre): (r: string)
    ensures StartsWith(r, UrlPrefix)
    ensures r[|UrlPrefix|..] == g.id
  {
    CanonicalPath(UrlPrefix, g.id)
  }

  /** Two genres share a path exactly when they share an identifier; no other attribute matters. */
  lemma UrlIdentifiesGenre(g: Genre, h: Genre)
    ensures Url(g) == Url(h) <==> g.id == h.id
  {
    CanonicalPathInjective(UrlPrefix, g.id, h.id);
  }
}

=== FILE: validation.dfy ===
/**
 The validation and sanitisation chains of the book-copy (BookInstance) create
 and update forms: every field is checked independently and all failures are
 gathered, while the sanitised draft is built whatever the outcome.
 */
module Validation {
  import opened Common

  /** The request body as submitted: each form field may be missing. */
  datatype RawForm = RawForm(
    book: Option<string>,
    imprint: Option<string>,
    status: Option<string>,
    dueBack: Option<string>)

  datatype Field = BookField | ImprintField | StatusField | DueBackField

  /** One entry of the validation result: the field and its message. */
  datatype FieldError = FieldError(field: Field, msg: string)

  /** The stored attributes of a book copy; also the sanitised draft of a form. */
  datatype Fields = Fields(book: Id, imprint: string, status: string, dueBack: Option<Date>)

  /** The outcome of validation: the draft and every error found, in field order. */
  datatype Validated = Validated(draft: Fields, errors: seq<FieldError>)

  /**
   The sanitisers and validators of the validation library, which this model
   does not reimplement: whitespace trimming, HTML escaping, the ISO 8601
   check, and date conversion (which yields nothing for an unparseable string).
   */
  datatype Validator = Validator(
    trim: string -> string,
    escape: string -> string,
    isIso8601: string -> bool,
    toDate: string -> Option<Date>)

  const BookMissing := "Book must be specified"
  const ImprintMissing := "Imprint must be specified"
  const InvalidDate := "Invalid date"

  const BookError := FieldError(BookField, BookMissing)
  const ImprintError := FieldError(ImprintField, ImprintMissing)
  const DueBackError := FieldError(DueBackField, InvalidDate)

  /** A sanitiser applied to a missing field sees the empty string. */
  function Text(o: Option<string>): string {
    o.GetOr("")
  }

  /**
   The errors of independent checks, in order; a passing check contributes
   nothing and no failing check is dropped.
   */
  function Gather<T>(checks: seq<Option<T>>): (r: seq<T>)
    ensures |r| <= |checks|
    ensures forall k :: 0 <= k < |checks| && checks[k].Some? ==> checks[k].value in r
    ensures forall e :: e in r ==> Some(e) in checks
  {
    if checks == [] then []
    else
      var rest := Gather(checks[1..]);
      assert forall k :: 1 <= k < |checks| ==> checks[k] == checks[1..][k - 1];
      match checks[0]
      case Some(e) => [e] + rest
      case None => rest
  }

  /** Gathering distributes over concatenation, so the errors keep the order of their checks. */
  lemma {:induction false} GatherConcat<T>(a: seq<Option<T>>, b: seq<Option<T>>)
    ensures Gather(a + b) == Gather(a) + Gather(b)
  {
    if a != [] {
      assert (a + b)[1..] == a[1..] + b;
      GatherConcat(a[1..], b);
    } else {
      assert a + b == b;
    }
  }

  /** A single check contributes its error once, or nothing. */
  lemma GatherOne<T>(c: Option<T>)
    ensures Gather([c]) == if c.Some? then [c.value] else []
  {
    assert [c][1..] == [];
  }

  /** Three checks gathered together give their errors one after the other. */
  lemma GatherThree<T>(a: Option<T>, b: Option<T>, c: Option<T>)
    ensures Gather([a, b, c]) == Gather([a]) + Gather([b]) + Gather([c])
  {
    assert [a, b, c] == [a] + [b] + [c];
    GatherConcat([a] + [b], [c]);
    GatherConcat([a], [b]);
  }

  /** The error list entry of one field: its error when it fails, else nothing. */
  function Reported(fails: bool, e: FieldError): seq<FieldError> {
    if fails then [e] else []
  }

  /** A required text field: trimmed, then at least one character long. */
  function RequiredCheck(val: Validator, raw: Option<string>, err: FieldError): Option<FieldError> {
    if |val.trim(Text(raw))| < 1 then Some(err) else None
  }

  /** An optional date field: skipped only when missing, else it must be ISO 8601. */
  function DateCheck(val: Validator, raw: Option<string>, err: FieldError): Option<FieldError> {
    match raw
    case None => None
    case Some(s) => if val.isIso8601(s) then None else Some(err)
  }

  /** The date a present date field converts to; the conversion runs even after a failed check. */
  function DateValue(val: Validator, raw: Option<string>): Option<Date> {
    match raw
    case None => None
    case Some(s) => val.toDate(s)
  }

  /**
   Validates and sanitises a create or update submission. `book` and `imprint`
   are trimmed, checked for presence and escaped; `status` is only escaped;
   `due_back` is checked as a date when present and converted to one.
   */
  function Validate(val: Validator, form: RawForm): (v: Validated)
    ensures v.errors ==
      Reported(val.trim(Text(form.book)) == "", BookError)
      + Reported(val.trim(Text(form.imprint)) == "", ImprintError)
      + Reported(form.dueBack.Some? && !val.isIso8601(form.dueBack.value), DueBackError)
    ensures BookError in v.errors <==> val.trim(Text(form.book)) == ""
    ensures ImprintError in v.errors <==> val.trim(Text(form.imprint)) == ""
    ensures DueBackError in v.errors <==> form.dueBack.Some? && !val.isIso8601(form.dueBack.value)
    ensures forall e :: e in v.errors ==> e == BookError || e == ImprintError || e == DueBackError
    ensures forall e :: e in v.errors ==> e.field != StatusField
    ensures v.draft.book == val.escape(val.trim(Text(form.book)))
    ensures v.draft.imprint == val.escape(val.trim(Text(form.imprint)))
    ensures v.draft.status == val.escape(Text(form.status))
    ensures form.dueBack.None? ==> v.draft.dueBack.None?
    ensures form.dueBack.Some? ==> v.draft.dueBack == val.toDate(form.dueBack.value)
  {
    var bookCheck := RequiredCheck(val, form.book, BookError);
    var imprintCheck := RequiredCheck(val, form.imprint, ImprintError);
    var dateCheck := DateCheck(val, form.dueBack, DueBackError);
    var draft := Fields(
      val.escape(val.trim(Text(form.book))),
      val.escape(val.trim(Text(form.imprint))),
      val.escape(Text(form.status)),
      DateValue(val, form.dueBack));
    GatherThree(bookCheck, imprintCheck, dateCheck);
    GatherOne(bookCheck);
    GatherOne(imprintCheck);
    GatherOne(dateCheck);
    Validated(draft, Gather([bookCheck, imprintCheck, dateCheck]))
  }

  /**
   A submission with no `due_back` field yields no date error and no date,
   whatever the other fields hold.
   */
  lemma MissingDueBackSkipped(val: Validator, form: RawForm)
    requires form.dueBack.None?
    ensures DueBackError !in Validate(val, form).errors
    ensures Validate(val, form).draft.dueBack == None
  {
  }

  /**
   The date option is written `checlFalsy`, which the library does not know,
   so the field is optional only when missing: an empty string is checked as
   a date and, not being ISO 8601, is reported.
   */
  lemma EmptyDueBackChecked(val: Validator, form: RawForm)
    requires form.dueBack == Some("")
    requires !val.isIso8601("")
    ensures DueBackError in Validate(val, form).errors
  {
  }

  /**
   The date check with the option spelt `checkFalsy`, as evidently intended:
   a missing or empty date is skipped, any other must be ISO 8601.
   */
  function DateCheckSkippingEmpty(val: Validator, raw: Option<string>, err: FieldError): (r: Option<FieldError>)
    ensures r.Some? <==> raw.Some? && raw.value != "" && !val.isIso8601(raw.value)
    ensures r.Some? ==> r.value == err
  {
    match raw
    case None => None
    case Some(s) => if s == "" || val.isIso8601(s) then None else Some(err)
  }

  /**
   The written and the intended date checks disagree on exactly one input:
   the empty string, which the written one reports.
   */
  lemma DateChecksDifferOnlyOnEmpty(val: Validator, raw: Option<string>, err: FieldError)
    requires !val.isIso8601("")
    ensures DateCheck(val, raw, err) != DateCheckSkippingEmpty(val, raw, err) <==> raw == Some("")
  {
  }

  /**
   Errors are not short-circuited: a submission failing on book, imprint and
   date at once gets all three errors, in field order.
   */
  lemma AllFailuresReported(val: Validator, form: RawForm)
    requires val.trim(Text(form.book)) == "" && val.trim(Text(form.imprint)) == ""
    requires form.dueBack.Some? && !val.isIso8601(form.dueBack.value)
    ensures Validate(val, form).errors == [BookError, ImprintError, DueBackError]
  {
  }
}
